=== FILE: README.md ===
# PicasaStarter entry point: decision logic

PicasaStarter is a Windows launcher for Picasa. It keeps a list of named
Picasa database profiles, maps a profile's directory to a virtual drive,
starts Picasa on it, and copies a profile's database as a backup. This
project models the deterministic logic inside the entry point `Main`
(`PicasaStarter/Program.cs`). Dialogs, the file system, the process table and
the clock are passed in as inputs, bundled in `Program.Environment`. A run is
a pure function `Program.Run` of those inputs. It returns the ordered trace of
observable effects (messages, settings saves, drive mapping, launches,
backups, the main window), the settings left in memory, and how the run ended.

The modules follow the parts of `Main`:

- `Strings`: the ASCII stand-in for `CurrentCultureIgnoreCase`, and
  `Trim(new char[] { '"', ' ' })`.
- `Domain`: profiles (`PicasaDB`), settings, dialog answers, warnings and
  trace events.
- `SettingsSearch`: the start-up loop that looks for the settings file. It
  asks Yes (retry), No (start over with defaults) or Cancel (quit).
- `CommandLine`: the `/autorun` / `/backup` argument loop. It is written
  once as a recursive function (`Scan`), once as the index loop of the source
  (`ParseLoop`), and the two are proved equal.
- `Lookup`: the special names `AskUser` and `personal`, and the
  case-insensitive profile scan in which the last match wins.
- `DbPaths`: where Picasa is pointed for a profile, including the fallback to
  the Picasa 3.8 layout under `\Local Settings\Application Data`.
- `BackupDate`: `LastBackupDate` bookkeeping around a backup.
- `Drive`: pairing of `MapVirtualDrive` and `UnmapVDrive` along a trace.
- `Program`, `ProgramLemmas`: the whole run, and properties of whole runs.

Some behaviours of `Main` are easy to misread:

- Name lookup does not stop at the first match. The foreach loop keeps
  overwriting, so the last profile that matches case-insensitively wins.
- For a named backup, `LastBackupDate` is set to today and saved before the
  copy starts. It is put back and saved again only when the copy does not
  complete. Only the personal backup advances the date strictly after
  completion.
- `/autorun personal` becomes the name of profile 0 and is then looked up
  like any other name. A later profile whose name equals it up to case is the
  one launched. `/backup personal` uses profile 0 directly.
- The autorun early returns at lines 203, 218 and 274 leave `Main`. A
  `/backup` on the same command line is then never run.
- A settings file that exists but does not deserialise leaves
  `ConfigFileExists` true. The in-memory defaults are then saved over that
  file (line 138) before the command line is processed.

## Model

| member | source | states |
|---|---|---|
| Strings.Trim | PicasaStarter/Program.cs:165 | a trimmed name starts and ends with neither `"` nor space, and a name that is already trimmed comes back unchanged |
| Strings.TrimRemovesOnlyPads | PicasaStarter/Program.cs:181 | trimming removes only `"` and space characters, and only from the two ends: the result is a contiguous infix of the argument |
| Strings.TrimIdempotent | PicasaStarter/Program.cs:165 | trimming a captured name a second time changes nothing |
| CommandLine.Scan | PicasaStarter/Program.cs:151-192 | the argument loop only appends messages, never re-enables the main window once hidden, and keeps every captured name trimmed |
| CommandLine.ParseLoop | PicasaStarter/Program.cs:151-192 | the index loop of the source, in which a switch advances the index a second time to reach its name, computes exactly the recursive parse |
| CommandLine.Parse | PicasaStarter/Program.cs:151-192 | the loop starts after the program path, so a command line with nothing after it captures nothing, shows no message and keeps the main window; every captured name is trimmed; there is at most one message per argument after the program path |
| CommandLine.ProgramPathIgnored | PicasaStarter/Program.cs:151 | argument 0 (the program path) never influences the result |
| CommandLine.LastSwitchWins | PicasaStarter/Program.cs:156-182 | `/autorun` or `/backup` in any letter case, followed by any argument, even another switch, captures that argument trimmed, replaces an earlier value of the same switch, hides the main window and changes nothing else |
| CommandLine.TrailingSwitchWarns | PicasaStarter/Program.cs:156-186 | `/autorun` or `/backup` in any letter case with no following argument adds one message, keeps the earlier name and still hides the main window |
| CommandLine.StrayArgumentWarns | PicasaStarter/Program.cs:188-191 | an argument that is not a switch adds exactly one message and changes nothing else |
| CommandLine.NoSwitchOnlyWarns | PicasaStarter/Program.cs:151-192 | a command line without switches yields one message per argument, in order, no names and the main window still shown |
| CommandLine.GuiHiddenOnlyBySwitch | PicasaStarter/Program.cs:156-174 | the main window is suppressed only if some argument is `/autorun` or `/backup` in some letter case |
| CommandLine.SwitchHidesGui | PicasaStarter/Program.cs:156-174 | any argument that is `/autorun` or `/backup` in some letter case hides the main window, even one swallowed as the name of the switch before it |
| CommandLine.ParseHidesGuiIffSwitch | PicasaStarter/Program.cs:151-192 | the main window is suppressed by the command line exactly when some argument after the program path is `/autorun` or `/backup` in some letter case |
| CommandLine.ScanShowGui | PicasaStarter/Program.cs:156-182 | whenever a database name was captured, the main window is suppressed |
| CommandLine.NamesComeFromArguments | PicasaStarter/Program.cs:164-165 | a captured name is always the trimmed form of one of the arguments |
| CommandLine.ScanAppend | PicasaStarter/Program.cs:151-192 | when the first part of the command line ends on a step boundary, parsing a concatenation is parsing the parts in turn |
| CommandLine.SwitchSwallowsSwitch | PicasaStarter/Program.cs:161-165 | `/autorun /backup` takes `/backup` as the autorun database name and requests no backup |
| Lookup.FindLast | PicasaStarter/Program.cs:227-231 | the selected profile matches the name case-insensitively and no later profile does; nothing is selected exactly when no profile matches |
| Lookup.FindLoop | PicasaStarter/Program.cs:363-368 | the foreach loop that overwrites the found profile on every match selects the last match |
| Lookup.ResolveAutorun | PicasaStarter/Program.cs:206-231 | a dismissed `AskUser` selection cancels exactly when `AskUser` was given; `personal` resolves through the name of profile 0 and throws on an empty list; otherwise the found profile is the last one whose name matches the requested name (or profile 0's name for `personal`), and an unknown name matches no profile |
| Lookup.PersonalAutorunAlwaysFound | PicasaStarter/Program.cs:223-231 | `/autorun personal` always reaches a profile whose name equals profile 0's up to case, the last such one |
| Lookup.ResolveBackup | PicasaStarter/Program.cs:323-368 | `personal` selects profile 0 without a lookup; an `AskUser` still standing after the dialog stops the run; otherwise the last case-insensitive match, or none |
| DbPaths.Resolve | PicasaStarter/Program.cs:242-279 | the standard profile gives no database path and the LocalAppData button directory; a custom BaseDir gets the legacy sub-path exactly when the current layout is absent, the legacy one exists and the user answers Yes; the run aborts exactly when the database directory is still absent; otherwise the database path is BaseDir and buttons go under it |
| DbPaths.CurrentLayoutWins | PicasaStarter/Program.cs:254-278 | a custom profile whose `\Google\Picasa2` exists is launched where it is, without a question |
| BackupDate.NamedBackup | PicasaStarter/Program.cs:375-403 | the first snapshot written has the date pre-set to today; afterwards the date is today if the copy completed and its old value otherwise, with a second snapshot only in that case; no other profile changes; the last snapshot matches the settings in memory |
| BackupDate.PersonalBackup | PicasaStarter/Program.cs:340-353 | profile 0's date becomes today only after a completed copy and is saved then; an incomplete copy changes and saves nothing |
| BackupDate.IncompleteBackupRestoresDate | PicasaStarter/Program.cs:389-403 | an incomplete backup leaves the settings exactly as they were, and the last snapshot written is the original |
| SettingsSearch.SearchStopsAtFirstNonRetry | PicasaStarter/Program.cs:73-109 | the settings-file loop ends at the first pass that is not a Yes retry, with that pass's verdict (found, No, Cancel) |
| SettingsSearch.SearchWaitsOnlyOnRetries | PicasaStarter/Program.cs:73-109 | the loop is still running exactly when every pass so far was a missing file answered with Yes |
| Program.Startup | PicasaStarter/Program.cs:52-128 | without a configuration file there is one added default profile and first-run mode; the command line is reached only with a found settings file; Cancel in the loop suppresses the main window; an unreadable settings file falls back to defaults |
| Program.LaunchFoundAsWritten | PicasaStarter/Program.cs:233-279 | the launch of a found profile as written: the profile's BaseDir becomes the one the legacy fallback chose, nothing else in the settings changes, and the run never throws here |
| Program.AsWrittenMissingDatabaseKeepsDriveMapped | PicasaStarter/Program.cs:269-275 | as written, a missing database directory returns with the virtual drive still mapped |
| Program.LaunchFound | PicasaStarter/Program.cs:233-308 | the drive is mapped first and unmapped last on every path; Picasa is launched exactly when the database directory resolves; on the abort path no button file is written and nothing is launched; the profile's BaseDir becomes the one the legacy fallback chose and nothing else in the settings changes and no backup is started |
| Program.LaunchFoundAddsOnlyUnmap | PicasaStarter/Program.cs:307-308 | the corrected launch differs from the as-written one only by an unmap on the missing-database return |
| Program.LaunchWork | PicasaStarter/Program.cs:254-305 | between mapping and unmapping there is no drive event; a resolved database ends with Picasa launched on the resolved path; a missing database writes no button file and launches nothing; no backup is started |
| Program.AutorunStage | PicasaStarter/Program.cs:196-204 | with Picasa already running, `/autorun` shows one message and returns before any mapping; the stage keeps drive mapping paired and never starts a backup |
| Program.AutorunOn | PicasaStarter/Program.cs:227-315 | a dismissed selection returns with nothing changed; an unknown name adds one not-found message naming it and leaves the settings and the drive untouched; `personal` on an empty list throws; a found profile goes to the launch; mapping stays paired; no backup is started |
| Program.BackupNamed | PicasaStarter/Program.cs:371-409 | a named backup maps the found profile's drive, saves the settings with the date pre-set to today, starts the copy, saves the settings with the original date again only when the copy did not complete, and unmaps the drive; it keeps mapping paired, never stops the run, and leaves the settings as the named bookkeeping prescribes |
| Program.BackupPersonal | PicasaStarter/Program.cs:337-354 | a personal backup starts the copy of profile 0 and, only when it completed, saves the settings with profile 0's date set to today; it has no drive event and leaves the settings as the personal bookkeeping prescribes |
| Program.BackupStage | PicasaStarter/Program.cs:320-416 | the `/backup` branch does nothing when no backup was requested; `AskUser` with the selection dialog dismissed shows the dialog and returns with no backup and the settings unchanged; mapping stays paired |
| Program.BackupOn | PicasaStarter/Program.cs:337-414 | `personal` goes to the personal backup and a found profile to the named one; an unknown name adds one not-found message and changes nothing else; a standing `AskUser` returns and `personal` on an empty list throws, both with nothing changed; mapping stays paired |
| Program.Prelude | PicasaStarter/Program.cs:132-192 | the settings loaded at start-up are saved right after the start-up messages and before any argument message; up to the dispatch the run has mapped, launched and backed up nothing, the drive is unmapped, and the settings are unchanged |
| Program.MainWindow | PicasaStarter/Program.cs:422-424 | the main window opens, at most once, exactly when it was not suppressed, in the mode given by whether a configuration exists |
| Program.Run | PicasaStarter/Program.cs:21-427 | in the corrected run (the missing-database return also unmaps) every drive mapping is followed by exactly one unmapping and the run ends unmapped; when `new Settings()` throws, the run shows one message and returns |
| ProgramLemmas.FirstRunIgnoresCommandLine | PicasaStarter/Program.cs:57-63 | without a configuration file the command line is never looked at: one default profile is added and the main window opens in first-run mode |
| ProgramLemmas.DeclinedSearchStartsFirstRun | PicasaStarter/Program.cs:100-105 | answering No in the settings-file loop gives the same first-run outcome |
| ProgramLemmas.CancelledSearchEndsQuietly | PicasaStarter/Program.cs:94-99 | Cancel in the settings-file loop ends the program with no effect and no window |
| ProgramLemmas.RunningPicasaStopsRun | PicasaStarter/Program.cs:199-204 | `/autorun` while Picasa runs returns with a message, before any mapping, launch or backup, settings untouched |
| ProgramLemmas.CancelledSelectionStopsRun | PicasaStarter/Program.cs:207-219 | `/autorun AskUser` with the selection dismissed maps, launches and backs up nothing, and returns |
| ProgramLemmas.AutorunStopSkipsBackup | PicasaStarter/Program.cs:196-320 | when the `/autorun` branch returns early (Picasa running, selection dismissed, database directory missing) the run does not finish normally and no backup is started, even with `/backup` on the command line |
| ProgramLemmas.UnknownAutorunNameChangesNothing | PicasaStarter/Program.cs:311-315 | on a command line with `/autorun` but without `/backup`, an unknown name gives a not-found message naming it; nothing is mapped, launched or backed up, the settings are unchanged, and the run carries on to its normal end (with `/backup` present the run goes on to the backup branch) |
| ProgramLemmas.BackupOnlyCommandLine | PicasaStarter/Program.cs:172-182 | `/backup name` alone captures the trimmed name, requests no autorun and suppresses the main window |
| ProgramLemmas.BackupOnlyRun | PicasaStarter/Program.cs:320-427 | a run with only `/backup name` ends where the backup branch ends: it finishes with that branch's trace and settings when the branch goes on, and returns (or throws) with them when a dismissed `AskUser` or `personal` on an empty list stops it |
| ProgramLemmas.CancelledBackupSelectionStopsRun | PicasaStarter/Program.cs:324-361 | `/backup AskUser` with the selection dismissed maps and backs up nothing, keeps the loaded settings, and returns |
| ProgramLemmas.NamedBackupRun | PicasaStarter/Program.cs:371-409 | after `/backup name`, the found profile's date is today if the copy completed and its old value otherwise; no other profile changes; its drive was mapped and the trace ends unmapped |
| ProgramLemmas.BackupStagePersonal | PicasaStarter/Program.cs:337-353 | the `personal` backup branch adds no drive event and applies the personal bookkeeping |
| ProgramLemmas.PersonalBackupRun | PicasaStarter/Program.cs:337-353 | after `/backup personal`, profile 0's date is today only if the copy completed, other profiles are unchanged, and no drive is ever mapped |

## Findings

| source | as written | input that shows it | evidently intended | confidence | as-written member | corrected member |
|---|---|---|---|---|---|---|
| PicasaStarter/Program.cs:269-275 | after `MapVirtualDrive` (line 235), the missing-database message returns from `Main` without `UnmapVDrive` | `/autorun X` where X is a custom profile whose `BaseDir\Google\Picasa2` does not exist and the legacy layout is absent or declined | unmap the drive before returning, as the normal path does at line 308 | medium, not executed | Program.AsWrittenMissingDatabaseKeepsDriveMapped | Program.LaunchFound |

`Program.Run` uses the corrected `Program.LaunchFound`. `Program.Run`'s
contract that every trace ends unmapped holds only because of that correction.

## Left out

- Windows Forms and message boxes: every dialog is an input (a Yes/No/Cancel
  answer, a selected name or none, a backup-completed flag). Every message is
  a `Warn` event whose text is not modelled.
- Settings and configuration XML (de)serialisation, and finding the
  configuration and settings directories: the result of loading is an input.
  A failed save only shows a message and changes no decision, so saves always
  appear as `SaveSettings` events.
- `new Settings()` reads the registry. Its failure is an input, and the list
  it starts with is the input `initial`. `GetDefaultPicasaDB` is the input
  `defaultDb`.
- `IOHelper.MapVirtualDrive`, `UnmapVDrive`, `IsProcessOpen`,
  `TryDeleteFiles`: OS calls, shown as events or inputs. The boolean that
  `MapVirtualDrive` returns is ignored by the source and is not modelled.
- `PicasaButton.CreateButtonFile`, `Registerbuttons`, `PicasaRunner.RunPicasa`:
  file creation, registration and process launch become the events
  `InstallButtons` and `LaunchPicasa`. Per-button failures and launch failures
  only show a message and are not modelled.
- `BackupForm_CL` and its directory copy are not part of this model. Only the
  `BackupComplete` flag it leaves behind is an input.
- `DateTime.Today` and `Environment.GetFolderPath` are inputs.
  `LastBackupDate` is a day number.
- Strings.EqualsIgnoreCase: compares with an ASCII case fold, an approximation
  of the culture-aware `CurrentCultureIgnoreCase`.
- SettingsSearch.SearchWaitsOnlyOnRetries: the loop can run forever if the
  user keeps answering Yes. The model sees a finite sequence of passes and
  reports `Waiting` when they run out.
- Program.Run: the pairing of drive mapping and unmapping holds for the
  corrected run only. As written, `Main` returns at line 274 with the drive
  mapped. It also assumes that nothing called between mapping and unmapping
  throws: `new PicasaRunner` (line 237), `TryDeleteFiles` (282),
  `Registerbuttons` (295) and the backup form (387) are outside any `try`,
  and an exception there would leave the drive mapped. Those exceptions are
  not modelled.
- `MainForm` (the interactive GUI) is not part of this model. Only whether it
  opens, and in which mode, is recorded.

=== FILE: backup_date.dfy ===
/** LastBackupDate bookkeeping around a command-line backup. */
module BackupDate {
  import opened Domain

  /** Profile `i` with its LastBackupDate replaced; everything else as before. */
  function WithDate(s: Settings, i: nat, d: Date): (r: Settings)
    requires i < |s.profiles|
    ensures |r.profiles| == |s.profiles| && r.buttons == s.buttons
    ensures r.profiles[i] == s.profiles[i].(lastBackup := d)
    ensures forall j :: 0 <= j < |s.profiles| && j != i ==> r.profiles[j] == s.profiles[j]
  {
    s.(profiles := s.profiles[i := s.profiles[i].(lastBackup := d)])
  }

  /** The settings after the run and every snapshot written to the settings file, in order. */
  datatype Bookkeeping = Bookkeeping(final: Settings, saves: seq<Settings>)

  /** A named backup: the date is set to today and saved before the copy, and
      put back (and saved again) when the copy does not complete. */
  function NamedBackup(s: Settings, i: nat, today: Date, completed: bool): (r: Bookkeeping)
    requires i < |s.profiles|
    ensures |r.final.profiles| == |s.profiles| && r.final.buttons == s.buttons
    ensures r.final.profiles[i].lastBackup == if completed then today else s.profiles[i].lastBackup
    ensures r.final.profiles[i] == s.profiles[i].(lastBackup := r.final.profiles[i].lastBackup)
    ensures forall j :: 0 <= j < |s.profiles| && j != i ==> r.final.profiles[j] == s.profiles[j]
    ensures !completed ==> r.final == s
    ensures |r.saves| == (if completed then 1 else 2)
    ensures r.saves[0] == WithDate(s, i, today)
    ensures r.saves[|r.saves| - 1] == r.final
  {
    var preset := WithDate(s, i, today);
    if completed then Bookkeeping(preset, [preset])
    else
      var reverted := WithDate(preset, i, s.profiles[i].lastBackup);
      assert reverted.profiles == s.profiles;
      Bookkeeping(reverted, [preset, reverted])
  }

  /** The personal backup acts on profile 0 and only advances its date after
      the copy has completed; nothing is saved otherwise. */
  function PersonalBackup(s: Settings, today: Date, completed: bool): (r: Bookkeeping)
    requires |s.profiles| > 0
    ensures |r.final.profiles| == |s.profiles| && r.final.buttons == s.buttons
    ensures r.final.profiles[0].lastBackup == if completed then today else s.profiles[0].lastBackup
    ensures r.final.profiles[0] == s.profiles[0].(lastBackup := r.final.profiles[0].lastBackup)
    ensures forall j :: 0 < j < |s.profiles| ==> r.final.profiles[j] == s.profiles[j]
    ensures !completed ==> r.final == s && r.saves == []
    ensures completed ==> r.saves == [r.final]
  {
    if completed then
      var s' := WithDate(s, 0, today);
      Bookkeeping(s', [s'])
    else Bookkeeping(s, [])
  }

  /** Whichever way a backup is requested, an incomplete copy leaves the
      settings exactly as they were, and the last snapshot written agrees. */
  lemma IncompleteBackupRestoresDate(s: Settings, i: nat, today: Date)
    requires i < |s.profiles|
    ensures NamedBackup(s, i, today, false).final == s
    ensures NamedBackup(s, i, today, false).saves[1] == s
    ensures PersonalBackup(s, today, false).final == s
  {
  }
}

=== FILE: command_line.dfy ===
/** The command-line loop of `Main`: `/autorun <name>` and `/backup <name>`. */
module CommandLine {
  import opened Domain
  import opened Strings

  /** What the loop leaves behind: the two captured names, whether the main
      window is still to be shown, and the messages shown on the way. */
  datatype Cli = Cli(
    autorun: Option<string>,
    backup: Option<string>,
    showGui: bool,
    warnings: seq<Warning>)

  const Initial := Cli(None, None, true, [])

  /** Which switch, if any, an argument spells (in any letter case). */
  function SwitchOf(arg: string): Option<Switch>
  {
    if EqualsIgnoreCase(arg, "/autorun") then Some(AutorunSwitch)
    else if EqualsIgnoreCase(arg, "/backup") then Some(BackupSwitch)
    else None
  }

  function Captured(c: Cli, sw: Switch): Option<string>
  {
    match sw
    case AutorunSwitch => c.autorun
    case BackupSwitch => c.backup
  }

  function Capture(c: Cli, sw: Switch, name: string): Cli
  {
    match sw
    case AutorunSwitch => c.(autorun := Some(name))
    case BackupSwitch => c.(backup := Some(name))
  }

  /** Every captured name is free of surrounding quotes and spaces. */
  predicate NamesTrimmed(c: Cli)
  {
    (c.autorun.Some? ==> Trimmed(c.autorun.value)) && (c.backup.Some? ==> Trimmed(c.backup.value))
  }

  /** A name captured from `args` is the trimmed form of one of its elements. */
  ghost predicate CameFrom(v: Option<string>, before: Option<string>, args: seq<string>)
  {
    v == before || (v.Some? && exists k :: 0 <= k < |args| && v.value == Trim(args[k]))
  }

  ghost predicate HasSwitch(args: seq<string>)
  {
    exists k :: 0 <= k < |args| && SwitchOf(args[k]).Some?
  }

  /** The loop over the remaining arguments. A switch hides the main window and
      swallows the following argument as its database name, whatever that
      argument is; a switch with nothing after it only adds a message; any
      other argument adds one message. */
  function Scan(args: seq<string>, acc: Cli): (r: Cli)
    ensures acc.warnings <= r.warnings
    ensures !acc.showGui ==> !r.showGui
    ensures NamesTrimmed(acc) ==> NamesTrimmed(r)
    decreases |args|
  {
    if |args| == 0 then acc
    else
      match SwitchOf(args[0])
      case Some(sw) =>
        if |args| >= 2 then Scan(args[2..], Capture(acc, sw, Trim(args[1])).(showGui := false))
        else acc.(showGui := false, warnings := acc.warnings + [MissingDatabaseName(sw)])
      case None =>
        Scan(args[1..], acc.(warnings := acc.warnings + [InvalidArgument(args[0])]))
  }

  /** Only a switch hides the main window. */
  lemma {:induction false} GuiHiddenOnlyBySwitch(args: seq<string>, acc: Cli)
    requires acc.showGui && !Scan(args, acc).showGui
    ensures HasSwitch(args)
    decreases |args|
  {
    if SwitchOf(args[0]).None? {
      GuiHiddenOnlyBySwitch(args[1..], acc.(warnings := acc.warnings + [InvalidArgument(args[0])]));
      var k :| 0 <= k < |args[1..]| && SwitchOf(args[1..][k]).Some?;
      assert SwitchOf(args[k + 1]).Some?;
    } else {
      assert SwitchOf(args[0]).Some?;
    }
  }

  /** Every switch hides the main window, including one swallowed as the name
      of the switch before it (that switch already hid the window). */
  lemma {:induction false} SwitchHidesGui(args: seq<string>, acc: Cli)
    requires HasSwitch(args)
    ensures !Scan(args, acc).showGui
    decreases |args|
  {
    var k :| 0 <= k < |args| && SwitchOf(args[k]).Some?;
    if SwitchOf(args[0]).None? {
      assert SwitchOf(args[1..][k - 1]).Some?;
      SwitchHidesGui(args[1..], acc.(warnings := acc.warnings + [InvalidArgument(args[0])]));
    }
  }

  /** The main window stays hidden exactly when some argument after the
      program path is `/autorun` or `/backup` in some letter case. */
  lemma ParseHidesGuiIffSwitch(argv: seq<string>)
    ensures !Parse(argv).showGui <==> |argv| > 1 && HasSwitch(argv[1..])
  {
    if |argv| > 1 && HasSwitch(argv[1..]) {
      SwitchHidesGui(argv[1..], Initial);
    }
    if !Parse(argv).showGui {
      GuiHiddenOnlyBySwitch(argv[1..], Initial);
    }
  }

  /** Whenever a name was captured, the main window is suppressed. */
  lemma ScanShowGui(argv: seq<string>)
    ensures var r := Parse(argv); r.autorun.Some? || r.backup.Some? ==> !r.showGui
  {
    if |argv| > 0 {
      CaptureHidesGui(argv[1..], Initial);
    }
  }

  lemma {:induction false} CaptureHidesGui(args: seq<string>, acc: Cli)
    requires acc.autorun.None? && acc.backup.None? && acc.showGui
    ensures var r := Scan(args, acc); r.autorun.Some? || r.backup.Some? ==> !r.showGui
    decreases |args|
  {
    if |args| > 0 && SwitchOf(args[0]).None? {
      CaptureHidesGui(args[1..], acc.(warnings := acc.warnings + [InvalidArgument(args[0])]));
    }
  }

  /** A captured name is the trimmed form of some argument; nothing else is ever captured. */
  lemma {:induction false} NamesComeFromArguments(args: seq<string>, acc: Cli)
    ensures CameFrom(Scan(args, acc).autorun, acc.autorun, args)
    ensures CameFrom(Scan(args, acc).backup, acc.backup, args)
    decreases |args|
  {
    if |args| == 0 {
    } else if SwitchOf(args[0]).None? {
      var acc' := acc.(warnings := acc.warnings + [InvalidArgument(args[0])]);
      NamesComeFromArguments(args[1..], acc');
      CameFromShift(Scan(args, acc).autorun, acc.autorun, args, 1);
      CameFromShift(Scan(args, acc).backup, acc.backup, args, 1);
    } else if |args| >= 2 {
      var sw := SwitchOf(args[0]).value;
      var acc' := Capture(acc, sw, Trim(args[1])).(showGui := false);
      NamesComeFromArguments(args[2..], acc');
      var r := Scan(args, acc);
      if sw == AutorunSwitch {
        CameFromShift(r.backup, acc.backup, args, 2);
        if r.autorun != acc.autorun && r.autorun == acc'.autorun {
          assert r.autorun.value == Trim(args[1]);
        } else {
          CameFromShift(r.autorun, acc'.autorun, args, 2);
        }
      } else {
        CameFromShift(r.autorun, acc.autorun, args, 2);
        if r.backup != acc.backup && r.backup == acc'.backup {
          assert r.backup.value == Trim(args[1]);
        } else {
          CameFromShift(r.backup, acc'.backup, args, 2);
        }
      }
    }
  }

  lemma CameFromShift(v: Option<string>, before: Option<string>, args: seq<string>, n: nat)
    requires n <= |args| && CameFrom(v, before, args[n..])
    ensures CameFrom(v, before, args)
  {
    if v != before {
      var k :| 0 <= k < |args[n..]| && v.value == Trim(args[n..][k]);
      assert v.value == Trim(args[k + n]);
    }
  }

  /** The whole command line; element 0 is the program path and is skipped. */
  function Parse(argv: seq<string>): (r: Cli)
    ensures |argv| <= 1 ==> r == Initial
    ensures NamesTrimmed(r)
    ensures |argv| >= 1 ==> |r.warnings| <= |argv| - 1
  {
    if |argv| == 0 then Initial else ScanWarnings(argv[1..], Initial); Scan(argv[1..], Initial)
  }

  /** Each step of the loop shows at most one message per argument it consumes. */
  lemma {:induction false} ScanWarnings(args: seq<string>, acc: Cli)
    ensures |Scan(args, acc).warnings| <= |acc.warnings| + |args|
    decreases |args|
  {
    if |args| > 0 {
      match SwitchOf(args[0])
      case Some(sw) =>
        if |args| >= 2 {
          ScanWarnings(args[2..], Capture(acc, sw, Trim(args[1])).(showGui := false));
        }
      case None =>
        ScanWarnings(args[1..], acc.(warnings := acc.warnings + [InvalidArgument(args[0])]));
    }
  }

  /** The steps of `Scan`, seen from position `i` of the whole command line. */
  lemma ScanStray(argv: seq<string>, i: nat, acc: Cli)
    requires i < |argv| && SwitchOf(argv[i]).None?
    ensures Scan(argv[i..], acc) == Scan(argv[i + 1..], acc.(warnings := acc.warnings + [InvalidArgument(argv[i])]))
  {
    assert argv[i..][1..] == argv[i + 1..];
  }

  lemma ScanSwitch(argv: seq<string>, i: nat, acc: Cli)
    requires i + 1 < |argv| && SwitchOf(argv[i]).Some?
    ensures Scan(argv[i..], acc) == Scan(argv[i + 2..], Capture(acc.(showGui := false), SwitchOf(argv[i]).value, Trim(argv[i + 1])))
  {
    var rest := argv[i..];
    assert rest[1] == argv[i + 1] && rest[2..] == argv[i + 2..];
    assert Capture(acc.(showGui := false), SwitchOf(argv[i]).value, Trim(argv[i + 1]))
      == Capture(acc, SwitchOf(argv[i]).value, Trim(argv[i + 1])).(showGui := false);
  }

  lemma ScanTrailing(argv: seq<string>, i: nat, acc: Cli)
    requires i + 1 == |argv| && SwitchOf(argv[i]).Some?
    ensures var hidden := acc.(showGui := false);
      Scan(argv[i..], acc) == hidden.(warnings := hidden.warnings + [MissingDatabaseName(SwitchOf(argv[i]).value)])
  {
    assert argv[i..] == [argv[i]];
  }

  /** The loop exactly as the entry point writes it: an index that a switch
      advances a second time to reach its name. */
  method ParseLoop(argv: seq<string>) returns (r: Cli)
    ensures r == Parse(argv)
  {
    ghost var goal := Parse(argv);
    r := Initial;
    var i := 1;
    while i < |argv|
      invariant 1 <= i <= |argv| + 1
      invariant i <= |argv| ==> Scan(argv[i..], r) == goal
      invariant i == |argv| + 1 ==> r == goal
      decreases |argv| - i
    {
      ghost var before := r;
      ghost var at := i;
      match SwitchOf(argv[i]) {
        case Some(sw) =>
          r := r.(showGui := false);
          i := i + 1;
          if i < |argv| {
            r := Capture(r, sw, Trim(argv[i]));
            ScanSwitch(argv, at, before);
          } else {
            r := r.(warnings := r.warnings + [MissingDatabaseName(sw)]);
            ScanTrailing(argv, at, before);
          }
        case None =>
          r := r.(warnings := r.warnings + [InvalidArgument(argv[i])]);
          ScanStray(argv, at, before);
      }
      i := i + 1;
    }
  }

  /** `args` splits into whole steps of the loop: no switch is left without a name. */
  predicate Aligned(args: seq<string>)
    decreases |args|
  {
    if |args| == 0 then true
    else if SwitchOf(args[0]).Some? then |args| >= 2 && Aligned(args[2..])
    else Aligned(args[1..])
  }

  /** Scanning a concatenation is scanning its parts in turn when the first
      part ends on a step boundary. */
  lemma {:induction false} ScanAppend(a: seq<string>, b: seq<string>, acc: Cli)
    requires Aligned(a)
    ensures Scan(a + b, acc) == Scan(b, Scan(a, acc))
    decreases |a|
  {
    if |a| == 0 {
      assert a + b == b;
    } else if SwitchOf(a[0]).Some? {
      assert (a + b)[0] == a[0] && (a + b)[1] == a[1];
      assert (a + b)[2..] == a[2..] + b;
      ScanAppend(a[2..], b, Capture(acc, SwitchOf(a[0]).value, Trim(a[1])).(showGui := false));
    } else {
      assert (a + b)[0] == a[0];
      assert (a + b)[1..] == a[1..] + b;
      ScanAppend(a[1..], b, acc.(warnings := acc.warnings + [InvalidArgument(a[0])]));
    }
  }

  /** Parsing never looks at the program path. */
  lemma ProgramPathIgnored(x: string, y: string, rest: seq<string>)
    ensures Parse([x] + rest) == Parse([y] + rest)
  {
    assert ([x] + rest)[1..] == rest;
    assert ([y] + rest)[1..] == rest;
  }

  /** A switch, in any letter case, followed by a name: the name (trimmed)
      replaces any earlier value for that switch, the main window is
      suppressed, and nothing else changes. The name is taken even when it is
      itself a switch. */
  lemma LastSwitchWins(argv: seq<string>, arg: string, sw: Switch, name: string)
    requires |argv| >= 1 && Aligned(argv[1..])
    requires SwitchOf(arg) == Some(sw)
    ensures var r := Parse(argv + [arg, name]);
      r == Capture(Parse(argv), sw, Trim(name)).(showGui := false)
      && Captured(r, sw) == Some(Trim(name))
      && Trimmed(Captured(r, sw).value)
  {
    assert (argv + [arg, name])[1..] == argv[1..] + [arg, name];
    ScanAppend(argv[1..], [arg, name], Initial);
    assert [arg, name][2..] == [];
  }

  /** A switch, in any letter case, as the last argument: a message, the main
      window suppressed, and the earlier value of the name kept. */
  lemma TrailingSwitchWarns(argv: seq<string>, arg: string, sw: Switch)
    requires |argv| >= 1 && Aligned(argv[1..])
    requires SwitchOf(arg) == Some(sw)
    ensures var before := Parse(argv);
      Parse(argv + [arg])
        == before.(showGui := false, warnings := before.warnings + [MissingDatabaseName(sw)])
  {
    assert (argv + [arg])[1..] == argv[1..] + [arg];
    ScanAppend(argv[1..], [arg], Initial);
  }

  /** Any other argument adds exactly one message and changes nothing else. */
  lemma StrayArgumentWarns(argv: seq<string>, arg: string)
    requires |argv| >= 1 && Aligned(argv[1..])
    requires SwitchOf(arg).None?
    ensures var before := Parse(argv);
      Parse(argv + [arg]) == before.(warnings := before.warnings + [InvalidArgument(arg)])
  {
    assert (argv + [arg])[1..] == argv[1..] + [arg];
    ScanAppend(argv[1..], [arg], Initial);
    assert [arg][1..] == [];
  }

  /** Without any switch the loop only collects one message per argument. */
  lemma {:induction false} NoSwitchOnlyWarns(args: seq<string>, acc: Cli)
    requires forall k :: 0 <= k < |args| ==> SwitchOf(args[k]).None?
    ensures Scan(args, acc)
      == acc.(warnings := acc.warnings + seq(|args|, k requires 0 <= k < |args| => InvalidArgument(args[k])))
    decreases |args|
  {
    var all := seq(|args|, k requires 0 <= k < |args| => InvalidArgument(args[k]));
    if |args| == 0 {
      assert all == [];
      assert acc.warnings + all == acc.warnings;
    } else {
      var acc' := acc.(warnings := acc.warnings + [InvalidArgument(args[0])]);
      NoSwitchOnlyWarns(args[1..], acc');
      var rest := seq(|args[1..]|, k requires 0 <= k < |args[1..]| => InvalidArgument(args[1..][k]));
      assert all == [InvalidArgument(args[0])] + rest;
    }
  }

  /** `/autorun /backup`: the second switch is swallowed as the database name. */
  lemma SwitchSwallowsSwitch(program: string)
    ensures Parse([program, "/autorun", "/backup"])
      == Cli(Some("/backup"), None, false, [])
  {
    var args := [program, "/autorun", "/backup"][1..];
    assert args == ["/autorun", "/backup"];
    assert SwitchOf("/autorun") == Some(AutorunSwitch);
    assert Trimmed("/backup");
    assert args[2..] == [];
    assert Trim("/backup") == "/backup";
    assert Scan(args, Initial) == Scan([], Cli(Some("/backup"), None, false, []));
  }
}

=== FILE: db_paths.dfy ===
/** Where Picasa is pointed for a profile: the database path handed to the
    launcher and the directory the button files go to. */
module DbPaths {
  import opened Domain

  const PicasaSubdir := "\\Google\\Picasa2"
  const ButtonsSubdir := "\\Google\\Picasa2\\buttons"
  /** The pre-3.9 layout kept the database one level deeper. */
  const LegacySubdir := "\\Local Settings\\Application Data"

  datatype Paths =
    | Ready(dbPath: Option<string>, buttonDir: string, baseDir: string, askedLegacy: bool)
    | Missing(baseDir: string, askedLegacy: bool)

  /** The current layout is absent but the legacy one is present, so the user is asked. */
  predicate LegacyApplies(base: string, dirs: set<string>)
  {
    base + PicasaSubdir !in dirs && base + LegacySubdir + PicasaSubdir in dirs
  }

  /** The standard profile uses the LocalAppData directory and no explicit
      database path. A custom profile moves to the legacy sub-path only when the
      current layout is missing, the legacy one exists and the user answers Yes;
      if the database directory is still missing the run aborts. `baseDir` is the
      profile's BaseDir afterwards, which the entry point writes back into it. */
  function Resolve(db: Profile, localAppData: string, dirs: set<string>, answer: Answer): (r: Paths)
    ensures db.isStandard ==> (r.Ready? && r.dbPath.None? && r.baseDir == db.baseDir
      && r.buttonDir == localAppData + ButtonsSubdir && !r.askedLegacy)
    ensures r.askedLegacy <==> !db.isStandard && LegacyApplies(db.baseDir, dirs)
    ensures r.baseDir == db.baseDir || r.baseDir == db.baseDir + LegacySubdir
    ensures r.baseDir == db.baseDir + LegacySubdir
      <==> !db.isStandard && LegacyApplies(db.baseDir, dirs) && answer == Yes
    ensures !db.isStandard ==> (r.Missing? <==> r.baseDir + PicasaSubdir !in dirs)
    ensures !db.isStandard && r.Ready? ==> (r.dbPath == Some(r.baseDir)
      && r.buttonDir == r.baseDir + ButtonsSubdir)
  {
    if db.isStandard then
      Ready(None, localAppData + ButtonsSubdir, db.baseDir, false)
    else
      var asked := LegacyApplies(db.baseDir, dirs);
      var base := if asked && answer == Yes then db.baseDir + LegacySubdir else db.baseDir;
      assert |db.baseDir + LegacySubdir| > |db.baseDir|;
      if base + PicasaSubdir !in dirs then Missing(base, asked)
      else Ready(Some(base), base + ButtonsSubdir, base, asked)
  }

  /** A custom profile whose current layout exists is launched where it is,
      without a question. */
  lemma CurrentLayoutWins(db: Profile, localAppData: string, dirs: set<string>, answer: Answer)
    requires !db.isStandard && db.baseDir + PicasaSubdir in dirs
    ensures Resolve(db, localAppData, dirs, answer)
      == Ready(Some(db.baseDir), db.baseDir + ButtonsSubdir, db.baseDir, false)
  {
  }
}

=== FILE: domain.dfy ===
/** The entities `Main` works with: database profiles, settings, dialog answers,
    and the observable effects of a run. */
module Domain {

  datatype Option<+T> = None | Some(value: T)

  /** DateTime values (`LastBackupDate`, `DateTime.Today`) as day numbers. */
  type Date = int

  /** PicasaDB: one named Picasa database profile. */
  datatype Profile = Profile(
    name: string,
    baseDir: string,
    backupDir: string,
    lastBackup: Date,
    isStandard: bool)

  /** A launchable button definition; its file contents are not modelled. */
  datatype Button = Button(name: string)

  /** The settings file: the profile list (entry 0 is the personal database) and the buttons. */
  datatype Settings = Settings(profiles: seq<Profile>, buttons: seq<Button>)

  /** Answer to a Yes/No or Yes/No/Cancel message box. */
  datatype Answer = Yes | No | Cancel

  /** The two recognised command-line switches. */
  datatype Switch = AutorunSwitch | BackupSwitch

  /** Messages shown to the user; none of them changes control flow by itself. */
  datatype Warning =
    | NotInitialized
    | SettingsReadError
    | InvalidArgument(arg: string)
    | MissingDatabaseName(switch: Switch)
    | AlreadyRunning
    | DatabaseNotFound(switch: Switch, name: string)
    | DatabaseMissingOnDisk(dir: string)

  /** Observable effects of a run, in the order they happen. */
  datatype Event =
    | Warn(warning: Warning)
    | SaveSettings(saved: Settings)
    | SelectDatabase(forBackup: bool)
    | MapDrive(profile: string)
    | UnmapDrive
    | AskLegacy(dir: string)
    | InstallButtons(dir: string)
    | LaunchPicasa(dbPath: Option<string>, settingsDir: string)
    | RunBackup(profile: string)
    | ShowMainForm(configExists: bool)
}

=== FILE: drive.dfy ===
/** Pairing of virtual-drive mapping and unmapping along a trace of events. */
module Drive {
  import opened Domain

  /** Effect of one event on whether the virtual drive is mapped; `None` when
      the drive would be mapped twice or unmapped while not mapped. */
  function Step(mapped: bool, e: Event): Option<bool>
  {
    match e
    case MapDrive(_) => if mapped then None else Some(true)
    case UnmapDrive => if mapped then Some(false) else None
    case _ => Some(mapped)
  }

  function DriveAfter(t: seq<Event>, mapped: bool): Option<bool>
    decreases |t|
  {
    if |t| == 0 then Some(mapped)
    else
      match DriveAfter(t[..|t| - 1], mapped)
      case None => None
      case Some(m) => Step(m, t[|t| - 1])
  }

  /** Every map is followed by exactly one unmap before the next map, and the trace ends unmapped. */
  predicate Balanced(t: seq<Event>)
  {
    DriveAfter(t, false) == Some(false)
  }

  /** No drive event at all. */
  predicate Quiet(t: seq<Event>)
  {
    forall k :: 0 <= k < |t| ==> !t[k].MapDrive? && !t[k].UnmapDrive?
  }

  lemma QuietConcat(a: seq<Event>, b: seq<Event>)
    requires Quiet(a) && Quiet(b)
    ensures Quiet(a + b)
  {
    forall k | 0 <= k < |a + b|
      ensures !(a + b)[k].MapDrive? && !(a + b)[k].UnmapDrive?
    {
      if k < |a| {
        assert (a + b)[k] == a[k];
      } else {
        assert (a + b)[k] == b[k - |a|];
      }
    }
  }

  lemma {:induction false} DriveAfterAppend(a: seq<Event>, b: seq<Event>, mapped: bool)
    ensures DriveAfter(a + b, mapped)
      == match DriveAfter(a, mapped) case None => None case Some(m) => DriveAfter(b, m)
    decreases |b|
  {
    if |b| == 0 {
      assert a + b == a;
    } else {
      var b' := b[..|b| - 1];
      assert (a + b)[..|a + b| - 1] == a + b';
      assert (a + b)[|a + b| - 1] == b[|b| - 1];
      DriveAfterAppend(a, b', mapped);
    }
  }

  lemma {:induction false} QuietKeepsDrive(t: seq<Event>, mapped: bool)
    requires Quiet(t)
    ensures DriveAfter(t, mapped) == Some(mapped)
    decreases |t|
  {
    if |t| > 0 {
      QuietKeepsDrive(t[..|t| - 1], mapped);
    }
  }

  /** Appending events that touch no drive keeps the pairing as it was. */
  lemma QuietAppend(a: seq<Event>, q: seq<Event>, mapped: bool)
    requires Quiet(q)
    ensures DriveAfter(a + q, mapped) == DriveAfter(a, mapped)
  {
    DriveAfterAppend(a, q, mapped);
    if DriveAfter(a, mapped).Some? {
      QuietKeepsDrive(q, DriveAfter(a, mapped).value);
    }
  }

  /** A map, drive-free work, then one unmap: a balanced trace stays balanced. */
  lemma BracketKeepsBalance(a: seq<Event>, name: string, q: seq<Event>)
    requires Balanced(a) && Quiet(q)
    ensures Balanced(a + [MapDrive(name)] + q + [UnmapDrive])
    ensures DriveAfter(a + [MapDrive(name)] + q, false) == Some(true)
  {
    DriveAfterAppend(a, [MapDrive(name)], false);
    assert DriveAfter([MapDrive(name)], false) == Some(true) by {
      assert [MapDrive(name)][..0] == [];
    }
    QuietAppend(a + [MapDrive(name)], q, false);
    DriveAfterAppend(a + [MapDrive(name)] + q, [UnmapDrive], false);
    assert DriveAfter([UnmapDrive], true) == Some(false) by {
      assert [UnmapDrive][..0] == [];
    }
  }
}

=== FILE: lookup.dfy ===
/** Turning a database name from the command line into a profile: the special
    names `AskUser` and `personal`, and the case-insensitive scan over the
    profile list in which the last match wins. */
module Lookup {
  import opened Domain
  import opened Strings

  predicate IsAskUser(name: string)
  {
    EqualsIgnoreCase(name, "AskUser")
  }

  predicate IsPersonal(name: string)
  {
    EqualsIgnoreCase(name, "personal")
  }

  predicate Matches(p: Profile, name: string)
  {
    EqualsIgnoreCase(p.name, name)
  }

  /** The index of the last profile whose name equals `name` up to letter case. */
  function FindLast(ps: seq<Profile>, name: string): (r: Option<nat>)
    ensures r.Some? ==> r.value < |ps| && Matches(ps[r.value], name)
    ensures r.Some? ==> forall j :: r.value < j < |ps| ==> !Matches(ps[j], name)
    ensures r.None? <==> forall j :: 0 <= j < |ps| ==> !Matches(ps[j], name)
    decreases |ps|
  {
    if |ps| == 0 then None
    else if Matches(ps[|ps| - 1], name) then Some(|ps| - 1)
    else FindLast(ps[..|ps| - 1], name)
  }

  /** The foreach loop of the entry point: every match overwrites the one found before. */
  method FindLoop(ps: seq<Profile>, name: string) returns (found: Option<nat>)
    ensures found == FindLast(ps, name)
  {
    found := None;
    var k := 0;
    while k < |ps|
      invariant 0 <= k <= |ps|
      invariant found == FindLast(ps[..k], name)
    {
      assert ps[..k + 1][..k] == ps[..k];
      if Matches(ps[k], name) {
        found := Some(k);
      }
      k := k + 1;
    }
    assert ps[..k] == ps;
  }

  /** Where a name leads. `Cancelled`: the selection dialog was dismissed, so the
      run stops. `NoProfiles`: `personal` indexes an empty list, which throws. */
  datatype Target =
    | Cancelled
    | NoProfiles
    | Unknown(name: string)
    | Personal
    | Found(index: nat)

  /** The name after the selection dialog: `AskUser` is replaced by the chosen name, if any. */
  function Requested(name: string, choice: Option<string>): string
  {
    if IsAskUser(name) && choice.Some? then choice.value else name
  }

  /** The /autorun name. `AskUser` with no choice stops the run; `personal`
      becomes the name of profile 0, which is then looked up like any other. */
  function ResolveAutorun(name: string, choice: Option<string>, ps: seq<Profile>): (r: Target)
    ensures r.Cancelled? <==> IsAskUser(name) && choice.None?
    ensures r.NoProfiles? <==> !r.Cancelled? && IsPersonal(Requested(name, choice)) && |ps| == 0
    ensures !r.Personal?
    ensures r.Found? ==> r.index < |ps|
    ensures r.Found? && !IsPersonal(Requested(name, choice)) ==> Matches(ps[r.index], Requested(name, choice))
    ensures r.Found? && IsPersonal(Requested(name, choice)) ==> Matches(ps[r.index], ps[0].name)
    ensures r.Found? ==> forall j :: r.index < j < |ps| ==>
      !Matches(ps[j], if IsPersonal(Requested(name, choice)) then ps[0].name else Requested(name, choice))
    ensures r.Unknown? ==> (r.name == Requested(name, choice) && !IsPersonal(r.name)
      && forall j :: 0 <= j < |ps| ==> !Matches(ps[j], r.name))
  {
    if IsAskUser(name) && choice.None? then Cancelled
    else
      var n := Requested(name, choice);
      if IsPersonal(n) && |ps| == 0 then NoProfiles
      else
        var n' := if IsPersonal(n) then ps[0].name else n;
        match FindLast(ps, n')
        case None => Unknown(n')
        case Some(i) => Found(i)
  }

  /** `/autorun personal` always reaches a profile when there is one: profile 0
      itself, or a later profile whose name differs from it only in case. */
  lemma PersonalAutorunAlwaysFound(name: string, choice: Option<string>, ps: seq<Profile>)
    requires |ps| > 0 && IsPersonal(name)
    ensures var r := ResolveAutorun(name, choice, ps);
      r.Found? && Matches(ps[r.index], ps[0].name)
      && forall j :: r.index < j < |ps| ==> !Matches(ps[j], ps[0].name)
  {
    assert Matches(ps[0], ps[0].name);
  }

  /** The /backup name. `personal` selects profile 0 directly (no lookup);
      `AskUser` still standing after the dialog stops the run. */
  function ResolveBackup(name: string, choice: Option<string>, ps: seq<Profile>): (r: Target)
    ensures r.Personal? <==> IsPersonal(Requested(name, choice)) && |ps| > 0
    ensures r.NoProfiles? <==> IsPersonal(Requested(name, choice)) && |ps| == 0
    ensures r.Cancelled? <==> !IsPersonal(Requested(name, choice)) && IsAskUser(Requested(name, choice))
    ensures IsAskUser(name) && choice.None? ==> r.Cancelled?
    ensures r.Found? ==> (r.index < |ps| && Matches(ps[r.index], Requested(name, choice))
      && forall j :: r.index < j < |ps| ==> !Matches(ps[j], Requested(name, choice)))
    ensures r.Unknown? ==> (r.name == Requested(name, choice)
      && forall j :: 0 <= j < |ps| ==> !Matches(ps[j], r.name))
  {
    var n := Requested(name, choice);
    if IsPersonal(n) then (if |ps| == 0 then NoProfiles else Personal)
    else if IsAskUser(n) then Cancelled
    else
      match FindLast(ps, n)
      case None => Unknown(n)
      case Some(i) => Found(i)
  }
}

=== FILE: program.dfy ===
/** The decision logic of the entry point `Main`: start-up, the command-line
    dispatch to /autorun and /backup, and whether the main window opens.
    Everything the program asks the operating system or the user is an
    input in `Environment`; everything it does is an `Event` in the trace. */
module Program {
  import opened Domain
  import opened Drive
  import CommandLine
  import Lookup
  import DbPaths
  import BackupDate
  import SettingsSearch

  /** The answers of the outside world for one run. */
  datatype Environment = Environment(
    registryReady: bool,                  // `new Settings()` did not throw
    configPresent: bool,                  // the configuration file deserialised
    initial: Settings,                    // what `new Settings()` holds
    defaultDb: Profile,                   // GetDefaultPicasaDB()
    probes: seq<SettingsSearch.Probe>,    // settings-file checks and the answers given
    stored: Option<Settings>,             // the settings file, if it deserialised
    settingsDir: string,
    argv: seq<string>,
    picasaRunning: bool,                  // IsProcessOpen("Picasa3")
    autorunChoice: Option<string>,        // SelectDBForm result for /autorun AskUser
    backupChoice: Option<string>,         // SelectDBForm result for /backup AskUser
    localAppData: string,
    dirs: set<string>,                    // directories that exist
    legacyAnswer: Answer,                 // answer to the legacy-database question
    backupCompleted: bool,                // the BackupComplete flag after the copy
    today: Date)

  /** How the run ended: normally, by an early return, by an unhandled exception,
      or still inside the settings-file loop. */
  datatype Exit = Finished | Returned | Crashed | Waiting

  datatype Outcome = Outcome(trace: seq<Event>, settings: Settings, exit: Exit)

  function WithDefault(s: Settings, db: Profile): Settings
  {
    s.(profiles := s.profiles + [db])
  }

  /** The settings in force once the settings file has been found: its
      contents, or the defaults when it does not deserialise. */
  function Loaded(env: Environment): Settings
  {
    match env.stored
    case Some(s) => s
    case None => WithDefault(env.initial, env.defaultDb)
  }

  datatype Start =
    | Stalled
    | Ready(trace: seq<Event>, settings: Settings, configExists: bool, showGui: bool)

  /** Initialization: load the configuration, then look for the settings file. */
  function Startup(env: Environment): (r: Start)
    ensures r.Stalled? <==> env.configPresent && SettingsSearch.Search(env.probes) == SettingsSearch.Waiting
    ensures !env.configPresent ==> r == Ready([], WithDefault(env.initial, env.defaultDb), false, true)
    ensures r.Ready? && r.configExists ==> (env.configPresent && r.showGui
      && SettingsSearch.Search(env.probes) == SettingsSearch.Found)
    ensures r.Ready? ==> Quiet(r.trace) && NoEffects(r.trace)
    ensures r.Ready? && r.configExists ==> r.settings == Loaded(env)
    ensures r.Ready? && !r.showGui <==> env.configPresent && SettingsSearch.Search(env.probes) == SettingsSearch.Quit
    ensures r.Ready? && !r.configExists && r.showGui ==> r.settings == WithDefault(env.initial, env.defaultDb)
  {
    if !env.configPresent then Ready([], WithDefault(env.initial, env.defaultDb), false, true)
    else
      match SettingsSearch.Search(env.probes)
      case Waiting => Stalled
      case Quit => Ready([], env.initial, false, false)
      case GaveUp => Ready([], WithDefault(env.initial, env.defaultDb), false, true)
      case Found =>
        match env.stored
        case Some(s) => Ready([], s, true, true)
        case None => Ready([Warn(SettingsReadError)], WithDefault(env.initial, env.defaultDb), true, true)
  }

  /** Whether a stage lets the run continue, returned early, or threw. */
  datatype Halt = Go | Stop | Crash

  datatype Stage = Stage(trace: seq<Event>, settings: Settings, halt: Halt)

  function WithBaseDir(s: Settings, i: nat, base: string): (r: Settings)
    requires i < |s.profiles|
    ensures |r.profiles| == |s.profiles| && r.buttons == s.buttons
    ensures r.profiles[i] == s.profiles[i].(baseDir := base)
    ensures forall j :: 0 <= j < |s.profiles| && j != i ==> r.profiles[j] == s.profiles[j]
  {
    s.(profiles := s.profiles[i := s.profiles[i].(baseDir := base)])
  }

  /** No drive mapping, no launch and no backup. */
  predicate NoEffects(t: seq<Event>)
  {
    forall k :: 0 <= k < |t| ==> !t[k].MapDrive? && !t[k].UnmapDrive? && !t[k].LaunchPicasa? && !t[k].RunBackup?
  }

  lemma NoEffectsConcat(a: seq<Event>, b: seq<Event>)
    requires NoEffects(a) && NoEffects(b)
    ensures NoEffects(a + b)
  {
    forall k | 0 <= k < |a + b|
      ensures var e := (a + b)[k]; !e.MapDrive? && !e.UnmapDrive? && !e.LaunchPicasa? && !e.RunBackup?
    {
      if k < |a| {
        assert (a + b)[k] == a[k];
      } else {
        assert (a + b)[k] == b[k - |a|];
      }
    }
  }

  /** No backup was started. */
  predicate NoBackup(t: seq<Event>)
  {
    forall k :: 0 <= k < |t| ==> !t[k].RunBackup?
  }

  lemma NoBackupConcat(a: seq<Event>, b: seq<Event>)
    requires NoBackup(a) && NoBackup(b)
    ensures NoBackup(a + b)
  {
    forall k | 0 <= k < |a + b|
      ensures !(a + b)[k].RunBackup?
    {
      if k < |a| {
        assert (a + b)[k] == a[k];
      } else {
        assert (a + b)[k] == b[k - |a|];
      }
    }
  }

  /** What happens between mapping and unmapping the drive for a found
      profile: the legacy question (if asked), then either the missing-database
      message or the button files and the launch. */
  function LaunchWork(env: Environment, db: Profile, p: DbPaths.Paths): (q: seq<Event>)
    ensures Quiet(q) && NoBackup(q) && |q| > 0
    ensures p.Ready? ==> q[|q| - 1] == LaunchPicasa(p.dbPath, env.settingsDir)
    ensures p.Missing? ==> forall k :: 0 <= k < |q| ==> !q[k].LaunchPicasa? && !q[k].InstallButtons?
  {
    var asked := if p.askedLegacy then [AskLegacy(db.baseDir + DbPaths.LegacySubdir)] else [];
    match p
    case Missing(base, _) => asked + [Warn(DatabaseMissingOnDisk(base + DbPaths.PicasaSubdir))]
    case Ready(dbPath, buttonDir, _, _) => asked + [InstallButtons(buttonDir), LaunchPicasa(dbPath, env.settingsDir)]
  }

  /** Launch of a profile that was found, as the entry point writes it: the
      drive is mapped first, and when the database directory is missing the
      run returns without unmapping it. The profile keeps the BaseDir chosen
      by the legacy fallback. */
  function LaunchFoundAsWritten(env: Environment, i: nat, s: Stage): (r: Stage)
    requires s.halt == Go && i < |s.settings.profiles|
    ensures |r.settings.profiles| == |s.settings.profiles|
      && r.settings == WithBaseDir(s.settings, i, r.settings.profiles[i].baseDir)
    ensures r.settings.profiles[i].baseDir
      == DbPaths.Resolve(s.settings.profiles[i], env.localAppData, env.dirs, env.legacyAnswer).baseDir
    ensures r.halt != Crash
  {
    var db := s.settings.profiles[i];
    var p := DbPaths.Resolve(db, env.localAppData, env.dirs, env.legacyAnswer);
    var q := LaunchWork(env, db, p);
    if p.Missing? then Stage(s.trace + [MapDrive(db.name)] + q, WithBaseDir(s.settings, i, p.baseDir), Stop)
    else Stage(s.trace + [MapDrive(db.name)] + q + [UnmapDrive], WithBaseDir(s.settings, i, p.baseDir), Go)
  }

  /** The discrepancy: whenever the database directory is missing, the as-written
      launch ends with the virtual drive still mapped. */
  lemma AsWrittenMissingDatabaseKeepsDriveMapped(env: Environment, i: nat, s: Stage)
    requires s.halt == Go && i < |s.settings.profiles| && Balanced(s.trace)
    requires DbPaths.Resolve(s.settings.profiles[i], env.localAppData, env.dirs, env.legacyAnswer).Missing?
    ensures LaunchFoundAsWritten(env, i, s).halt == Stop
    ensures DriveAfter(LaunchFoundAsWritten(env, i, s).trace, false) == Some(true)
  {
    var db := s.settings.profiles[i];
    var p := DbPaths.Resolve(db, env.localAppData, env.dirs, env.legacyAnswer);
    BracketKeepsBalance(s.trace, db.name, LaunchWork(env, db, p));
  }

  /** Launch of a found profile with the drive released on every path. */
  function LaunchFound(env: Environment, i: nat, s: Stage): (r: Stage)
    requires s.halt == Go && i < |s.settings.profiles|
    ensures Balanced(s.trace) ==> Balanced(r.trace)
    ensures s.trace <= r.trace && |r.trace| > |s.trace| + 1 && r.trace[|s.trace|] == MapDrive(s.settings.profiles[i].name)
    ensures |r.settings.profiles| == |s.settings.profiles|
      && r.settings == WithBaseDir(s.settings, i, r.settings.profiles[i].baseDir)
    ensures r.settings.profiles[i].baseDir
      == DbPaths.Resolve(s.settings.profiles[i], env.localAppData, env.dirs, env.legacyAnswer).baseDir
    ensures r.halt == Go <==> DbPaths.Resolve(s.settings.profiles[i], env.localAppData, env.dirs, env.legacyAnswer).Ready?
    ensures r.halt != Crash && r.trace[|r.trace| - 1] == UnmapDrive
    ensures r.halt == Go ==> r.trace[|r.trace| - 2].LaunchPicasa?
    ensures r.halt == Stop ==> forall k :: |s.trace| <= k < |r.trace| ==> !r.trace[k].LaunchPicasa? && !r.trace[k].InstallButtons?
    ensures NoBackup(s.trace) ==> NoBackup(r.trace)
  {
    var db := s.settings.profiles[i];
    var p := DbPaths.Resolve(db, env.localAppData, env.dirs, env.legacyAnswer);
    var q := LaunchWork(env, db, p);
    assert NoBackup(s.trace) ==> NoBackup(s.trace + [MapDrive(db.name)] + q + [UnmapDrive]) by {
      if NoBackup(s.trace) {
        NoBackupConcat(s.trace, [MapDrive(db.name)]);
        NoBackupConcat(s.trace + [MapDrive(db.name)], q);
        NoBackupConcat(s.trace + [MapDrive(db.name)] + q, [UnmapDrive]);
      }
    }
    assert Balanced(s.trace) ==> Balanced(s.trace + [MapDrive(db.name)] + q + [UnmapDrive]) by {
      if Balanced(s.trace) {
        BracketKeepsBalance(s.trace, db.name, q);
      }
    }
    Stage(s.trace + [MapDrive(db.name)] + q + [UnmapDrive], WithBaseDir(s.settings, i, p.baseDir), if p.Missing? then Stop else Go)
  }

  /** The corrected launch differs from the as-written one only by the unmap
      on the missing-database return. */
  lemma LaunchFoundAddsOnlyUnmap(env: Environment, i: nat, s: Stage)
    requires s.halt == Go && i < |s.settings.profiles|
    ensures var w := LaunchFoundAsWritten(env, i, s);
      LaunchFound(env, i, s) == if w.halt == Stop then w.(trace := w.trace + [UnmapDrive]) else w
  {
  }

  /** The /autorun branch once the name has been resolved. */
  function AutorunOn(env: Environment, target: Lookup.Target, s: Stage): (r: Stage)
    requires s.halt == Go
    requires target.Found? ==> target.index < |s.settings.profiles|
    ensures s.trace <= r.trace
    ensures Balanced(s.trace) ==> Balanced(r.trace)
    ensures NoBackup(s.trace) ==> NoBackup(r.trace)
    ensures match target
      case Cancelled => r.halt == Stop && r.settings == s.settings && r.trace == s.trace
      case Unknown(m) => r.halt == Go && r.settings == s.settings
        && r.trace == s.trace + [Warn(DatabaseNotFound(AutorunSwitch, m))]
      case Found(i) => r == LaunchFound(env, i, s)
      case _ => r.halt == Crash && r.settings == s.settings && r.trace == s.trace
  {
    match target
    case Cancelled => s.(halt := Stop)
    case Unknown(m) =>
      var w := [Warn(DatabaseNotFound(AutorunSwitch, m))];
      QuietAppend(s.trace, w, false);
      assert NoBackup(s.trace) ==> NoBackup(s.trace + w) by {
        if NoBackup(s.trace) {
          NoBackupConcat(s.trace, w);
        }
      }
      s.(trace := s.trace + w)
    case Found(i) => LaunchFound(env, i, s)
    case _ => s.(halt := Crash)
  }

  /** The /autorun branch: Picasa must not be running, then the name is resolved. */
  function AutorunStage(env: Environment, name: Option<string>, s: Stage): (r: Stage)
    requires s.halt == Go
    ensures name.None? ==> r == s
    ensures s.trace <= r.trace
    ensures Balanced(s.trace) ==> Balanced(r.trace)
    ensures name.Some? && env.picasaRunning ==> r == s.(trace := s.trace + [Warn(AlreadyRunning)], halt := Stop)
    ensures NoBackup(s.trace) ==> NoBackup(r.trace)
  {
    match name
    case None => s
    case Some(n) =>
      if env.picasaRunning then
        assert NoBackup(s.trace) ==> NoBackup(s.trace + [Warn(AlreadyRunning)]) by {
          if NoBackup(s.trace) {
            NoBackupConcat(s.trace, [Warn(AlreadyRunning)]);
          }
        }
        s.(trace := s.trace + [Warn(AlreadyRunning)], halt := Stop)
      else
        var asked := if Lookup.IsAskUser(n) then [SelectDatabase(false)] else [];
        QuietAppend(s.trace, asked, false);
        assert NoBackup(s.trace) ==> NoBackup(s.trace + asked) by {
          if NoBackup(s.trace) {
            NoBackupConcat(s.trace, asked);
          }
        }
        AutorunOn(env, Lookup.ResolveAutorun(n, env.autorunChoice, s.settings.profiles), Stage(s.trace + asked, s.settings, Go))
  }

  function SaveEvents(ss: seq<Settings>): (r: seq<Event>)
    ensures Quiet(r) && |r| == |ss|
    ensures forall k :: 0 <= k < |ss| ==> r[k] == SaveSettings(ss[k])
  {
    seq(|ss|, k requires 0 <= k < |ss| => SaveSettings(ss[k]))
  }

  /** A named backup: map, pre-set and save the date, copy, revert and save
      again when the copy did not complete, unmap. */
  function BackupNamed(env: Environment, i: nat, s: Stage): (r: Stage)
    requires s.halt == Go && i < |s.settings.profiles|
    ensures s.trace <= r.trace && r.halt == Go
    ensures Balanced(s.trace) ==> Balanced(r.trace)
    ensures r.settings == BackupDate.NamedBackup(s.settings, i, env.today, env.backupCompleted).final
    ensures |r.trace| > |s.trace| + 3 && r.trace[|s.trace|] == MapDrive(s.settings.profiles[i].name)
      && r.trace[|r.trace| - 1] == UnmapDrive
    ensures r.trace[|s.trace| + 1] == SaveSettings(BackupDate.WithDate(s.settings, i, env.today))
      && r.trace[|s.trace| + 2] == RunBackup(s.settings.profiles[i].name)
    ensures var name := s.settings.profiles[i].name;
      r.trace == s.trace + [MapDrive(name), SaveSettings(BackupDate.WithDate(s.settings, i, env.today)), RunBackup(name)]
        + (if env.backupCompleted then [] else [SaveSettings(s.settings)]) + [UnmapDrive]
  {
    var name := s.settings.profiles[i].name;
    var b := BackupDate.NamedBackup(s.settings, i, env.today, env.backupCompleted);
    var q := [SaveSettings(b.saves[0]), RunBackup(name)] + SaveEvents(b.saves[1..]);
    assert Quiet(q);
    assert Balanced(s.trace) ==> Balanced(s.trace + [MapDrive(name)] + q + [UnmapDrive]) by {
      if Balanced(s.trace) {
        BracketKeepsBalance(s.trace, name, q);
      }
    }
    Stage(s.trace + [MapDrive(name)] + q + [UnmapDrive], b.final, Go)
  }

  /** The personal backup: copy profile 0, no drive mapping, and save only
      after a completed copy. */
  function BackupPersonal(env: Environment, s: Stage): (r: Stage)
    requires s.halt == Go && |s.settings.profiles| > 0
    ensures s.trace <= r.trace && r.halt == Go
    ensures Quiet(r.trace[|s.trace|..])
    ensures r.settings == BackupDate.PersonalBackup(s.settings, env.today, env.backupCompleted).final
    ensures |r.trace| > |s.trace| && r.trace[|s.trace|] == RunBackup(s.settings.profiles[0].name)
    ensures r.trace == s.trace + [RunBackup(s.settings.profiles[0].name)]
      + (if env.backupCompleted then [SaveSettings(BackupDate.WithDate(s.settings, 0, env.today))] else [])
  {
    var b := BackupDate.PersonalBackup(s.settings, env.today, env.backupCompleted);
    var q := [RunBackup(s.settings.profiles[0].name)] + SaveEvents(b.saves);
    assert (s.trace + q)[|s.trace|..] == q;
    Stage(s.trace + q, b.final, Go)
  }

  /** The /backup branch once the name has been resolved. */
  function BackupOn(env: Environment, target: Lookup.Target, s: Stage): (r: Stage)
    requires s.halt == Go
    requires target.Found? ==> target.index < |s.settings.profiles|
    requires target.Personal? ==> |s.settings.profiles| > 0
    ensures s.trace <= r.trace
    ensures Balanced(s.trace) ==> Balanced(r.trace)
    ensures match target
      case Personal => r == BackupPersonal(env, s)
      case Found(i) => r == BackupNamed(env, i, s)
      case Unknown(m) => r.halt == Go && r.settings == s.settings
        && r.trace == s.trace + [Warn(DatabaseNotFound(BackupSwitch, m))]
      case Cancelled => r.halt == Stop && r.settings == s.settings && r.trace == s.trace
      case NoProfiles => r.halt == Crash && r.settings == s.settings && r.trace == s.trace
  {
    match target
    case Personal =>
      var r := BackupPersonal(env, s);
      QuietAppend(s.trace, r.trace[|s.trace|..], false);
      assert s.trace + r.trace[|s.trace|..] == r.trace;
      r
    case Found(i) => BackupNamed(env, i, s)
    case Unknown(m) =>
      var w := [Warn(DatabaseNotFound(BackupSwitch, m))];
      QuietAppend(s.trace, w, false);
      s.(trace := s.trace + w)
    case Cancelled => s.(halt := Stop)
    case NoProfiles => s.(halt := Crash)
  }

  /** The /backup branch: the name is resolved (after the selection dialog for `AskUser`). */
  function BackupStage(env: Environment, name: Option<string>, s: Stage): (r: Stage)
    requires s.halt == Go
    ensures name.None? ==> r == s
    ensures s.trace <= r.trace
    ensures Balanced(s.trace) ==> Balanced(r.trace)
    ensures name.Some? && Lookup.IsAskUser(name.value) && env.backupChoice.None?
      ==> r == s.(trace := s.trace + [SelectDatabase(true)], halt := Stop)
  {
    match name
    case None => s
    case Some(n) =>
      var asked := if Lookup.IsAskUser(n) then [SelectDatabase(true)] else [];
      QuietAppend(s.trace, asked, false);
      BackupOn(env, Lookup.ResolveBackup(n, env.backupChoice, s.settings.profiles), Stage(s.trace + asked, s.settings, Go))
  }

  function WarningEvents(ws: seq<Warning>): (r: seq<Event>)
    ensures Quiet(r) && NoEffects(r) && |r| == |ws|
  {
    seq(|ws|, k requires 0 <= k < |ws| => Warn(ws[k]))
  }

  function Close(s: Stage): Outcome
  {
    Outcome(s.trace, s.settings, if s.halt == Crash then Crashed else Returned)
  }

  /** The main window opens, at most once, exactly when it was not suppressed,
      in first-run mode when there is no configuration. */
  function MainWindow(show: bool, configExists: bool): (r: seq<Event>)
    ensures |r| <= 1 && (|r| == 1 <==> show)
    ensures forall k :: 0 <= k < |r| ==> r[k] == ShowMainForm(configExists)
    ensures Quiet(r)
  {
    if show then [ShowMainForm(configExists)] else []
  }

  /** The trace up to the command-line dispatch: start-up messages, the
      settings save, and the messages of the argument loop. */
  function Prelude(start: Start, cli: CommandLine.Cli): (r: Stage)
    requires start.Ready? && Quiet(start.trace) && NoEffects(start.trace)
    ensures Balanced(r.trace) && NoEffects(r.trace) && r.halt == Go && r.settings == start.settings
    ensures |r.trace| > |start.trace| && r.trace[|start.trace|] == SaveSettings(start.settings)
      && r.trace[..|start.trace|] == start.trace
  {
    var w := WarningEvents(cli.warnings);
    var t := start.trace + [SaveSettings(start.settings)] + w;
    QuietConcat(start.trace, [SaveSettings(start.settings)]);
    QuietConcat(start.trace + [SaveSettings(start.settings)], w);
    NoEffectsConcat(start.trace, [SaveSettings(start.settings)]);
    NoEffectsConcat(start.trace + [SaveSettings(start.settings)], w);
    QuietKeepsDrive(t, false);
    Stage(t, start.settings, Go)
  }

  /** One run of `Main`. */
  function Run(env: Environment): (r: Outcome)
    ensures Balanced(r.trace)
    ensures !env.registryReady ==> r == Outcome([Warn(NotInitialized)], env.initial, Returned)
  {
    if !env.registryReady then
      var r := Outcome([Warn(NotInitialized)], env.initial, Returned);
      QuietKeepsDrive(r.trace, false);
      r
    else
      var start := Startup(env);
      if start.Stalled? then
        Outcome([], env.initial, Waiting)
      else if !start.configExists then
        var t := start.trace + MainWindow(start.showGui, false);
        QuietKeepsDrive(t, false);
        Outcome(t, start.settings, Finished)
      else
        var cli := CommandLine.Parse(env.argv);
        var a := AutorunStage(env, cli.autorun, Prelude(start, cli));
        if a.halt != Go then Close(a)
        else
          var b := BackupStage(env, cli.backup, a);
          if b.halt != Go then Close(b)
          else
            var t := b.trace + MainWindow(cli.showGui, true);
            QuietAppend(b.trace, MainWindow(cli.showGui, true), false);
            Outcome(t, b.settings, Finished)
  }
}

=== FILE: program_lemmas.dfy ===
/** Properties of whole runs of `Main`. */
module ProgramLemmas {
  import opened Domain
  import opened Drive
  import opened Program
  import CommandLine
  import Lookup
  import BackupDate
  import SettingsSearch
  import Strings

  /** Without a configuration file the command line is never looked at: one
      default profile is added and the main window opens in first-run mode. */
  lemma FirstRunIgnoresCommandLine(env: Environment)
    requires env.registryReady && !env.configPresent
    ensures Run(env) == Outcome([ShowMainForm(false)], WithDefault(env.initial, env.defaultDb), Finished)
  {
  }

  /** Answering No in the settings-file loop also gives the first-run window. */
  lemma DeclinedSearchStartsFirstRun(env: Environment)
    requires env.registryReady && env.configPresent
    requires SettingsSearch.Search(env.probes) == SettingsSearch.GaveUp
    ensures Run(env) == Outcome([ShowMainForm(false)], WithDefault(env.initial, env.defaultDb), Finished)
  {
  }

  /** Cancel in the settings-file loop ends the program with nothing shown or done. */
  lemma CancelledSearchEndsQuietly(env: Environment)
    requires env.registryReady && env.configPresent
    requires SettingsSearch.Search(env.probes) == SettingsSearch.Quit
    ensures Run(env) == Outcome([], env.initial, Finished)
  {
  }

  /** The run reaches the command line. */
  predicate ReachesCommandLine(env: Environment)
  {
    env.registryReady && env.configPresent && SettingsSearch.Search(env.probes) == SettingsSearch.Found
  }

  /** /autorun while Picasa is running: a message and an early return, before
      any mapping, launch or backup, and the main window stays closed. */
  lemma RunningPicasaStopsRun(env: Environment)
    requires ReachesCommandLine(env) && env.picasaRunning
    requires CommandLine.Parse(env.argv).autorun.Some?
    ensures Run(env).exit == Returned && Run(env).settings == Loaded(env)
    ensures NoEffects(Run(env).trace)
    ensures Warn(AlreadyRunning) in Run(env).trace
  {
    var start := Startup(env);
    var cli := CommandLine.Parse(env.argv);
    var p := Prelude(start, cli);
    var a := AutorunStage(env, cli.autorun, p);
    assert a.trace == p.trace + [Warn(AlreadyRunning)];
    NoEffectsConcat(p.trace, [Warn(AlreadyRunning)]);
  }

  /** /autorun AskUser with the selection dialog dismissed: nothing is mapped,
      launched or backed up, and the run returns. */
  lemma CancelledSelectionStopsRun(env: Environment)
    requires ReachesCommandLine(env) && !env.picasaRunning
    requires CommandLine.Parse(env.argv).autorun.Some?
    requires Lookup.IsAskUser(CommandLine.Parse(env.argv).autorun.value) && env.autorunChoice.None?
    ensures Run(env).exit == Returned && Run(env).settings == Loaded(env)
    ensures NoEffects(Run(env).trace)
  {
    var start := Startup(env);
    var cli := CommandLine.Parse(env.argv);
    var p := Prelude(start, cli);
    var a := AutorunStage(env, cli.autorun, p);
    assert a.trace == p.trace + [SelectDatabase(false)];
    NoEffectsConcat(p.trace, [SelectDatabase(false)]);
  }

  /** An /autorun branch that stops the run (Picasa running, the selection
      dismissed, or the database directory missing) leaves `Main` before the
      /backup branch: no backup is ever started. */
  lemma AutorunStopSkipsBackup(env: Environment)
    requires ReachesCommandLine(env)
    ensures var cli := CommandLine.Parse(env.argv);
      var a := AutorunStage(env, cli.autorun, Prelude(Startup(env), cli));
      a.halt != Go ==> Run(env) == Close(a) && Run(env).exit != Finished && NoBackup(Run(env).trace)
  {
    var cli := CommandLine.Parse(env.argv);
    var p := Prelude(Startup(env), cli);
    var a := AutorunStage(env, cli.autorun, p);
    assert NoBackup(p.trace);
  }

  /** An /autorun name that matches no profile: a message, and neither the
      settings nor the drive are touched; the run goes on to /backup. */
  lemma UnknownAutorunNameChangesNothing(env: Environment)
    requires ReachesCommandLine(env) && !env.picasaRunning
    requires CommandLine.Parse(env.argv).autorun.Some?
    requires CommandLine.Parse(env.argv).backup.None?
    requires Lookup.ResolveAutorun(CommandLine.Parse(env.argv).autorun.value, env.autorunChoice, Loaded(env).profiles).Unknown?
    ensures Run(env).exit == Finished && Run(env).settings == Loaded(env)
    ensures NoEffects(Run(env).trace)
    ensures Warn(DatabaseNotFound(AutorunSwitch,
      Lookup.ResolveAutorun(CommandLine.Parse(env.argv).autorun.value, env.autorunChoice, Loaded(env).profiles).name))
      in Run(env).trace
  {
    var start := Startup(env);
    var cli := CommandLine.Parse(env.argv);
    var n := cli.autorun.value;
    var p := Prelude(start, cli);
    var asked := if Lookup.IsAskUser(n) then [SelectDatabase(false)] else [];
    var target := Lookup.ResolveAutorun(n, env.autorunChoice, Loaded(env).profiles);
    var w := [Warn(DatabaseNotFound(AutorunSwitch, target.name))];
    var a := AutorunStage(env, cli.autorun, p);
    assert a.trace == p.trace + asked + w;
    NoEffectsConcat(p.trace, asked);
    NoEffectsConcat(p.trace + asked, w);
    assert !cli.showGui by {
      CommandLine.ScanShowGui(env.argv);
    }
  }

  /** `program /backup name` captures only the trimmed backup name and suppresses the main window. */
  lemma BackupOnlyCommandLine(program: string, name: string)
    ensures CommandLine.Parse([program, "/backup", name]) == CommandLine.Cli(None, Some(Strings.Trim(name)), false, [])
  {
    assert CommandLine.SwitchOf("/backup") == Some(BackupSwitch);
    CommandLine.LastSwitchWins([program], "/backup", BackupSwitch, name);
    assert [program] + ["/backup", name] == [program, "/backup", name];
  }

  /** A run whose command line is only `/backup name` ends where the backup branch ends. */
  lemma BackupOnlyRun(env: Environment, program: string, name: string)
    requires ReachesCommandLine(env) && env.argv == [program, "/backup", name]
    ensures var cli := CommandLine.Parse(env.argv);
      var b := BackupStage(env, cli.backup, Prelude(Startup(env), cli));
      && (b.halt == Go ==> Run(env) == Outcome(b.trace, b.settings, Finished))
      && (b.halt != Go ==> Run(env) == Close(b))
  {
    BackupOnlyCommandLine(program, name);
  }

  /** `/backup AskUser` with the selection dialog dismissed: nothing is mapped
      or backed up, the settings are as loaded, and the run returns. */
  lemma CancelledBackupSelectionStopsRun(env: Environment, program: string, name: string)
    requires ReachesCommandLine(env) && env.argv == [program, "/backup", name]
    requires Lookup.IsAskUser(Strings.Trim(name)) && env.backupChoice.None?
    ensures Run(env).exit == Returned && Run(env).settings == Loaded(env)
    ensures NoEffects(Run(env).trace)
  {
    BackupOnlyCommandLine(program, name);
    var cli := CommandLine.Parse(env.argv);
    var p := Prelude(Startup(env), cli);
    var b := BackupStage(env, cli.backup, p);
    assert b.trace == p.trace + [SelectDatabase(true)];
    NoEffectsConcat(p.trace, [SelectDatabase(true)]);
    BackupOnlyRun(env, program, name);
  }

  /** `/backup <name>` for a profile found by name: the date of that profile is
      today exactly when the copy completed and its old value otherwise, no
      other profile changes, and the drive is mapped and released again. */
  lemma NamedBackupRun(env: Environment, program: string, name: string)
    requires ReachesCommandLine(env) && env.argv == [program, "/backup", name]
    requires Lookup.ResolveBackup(Strings.Trim(name), env.backupChoice, Loaded(env).profiles).Found?
    ensures var i := Lookup.ResolveBackup(Strings.Trim(name), env.backupChoice, Loaded(env).profiles).index;
      var r := Run(env);
      && r.exit == Finished
      && |r.settings.profiles| == |Loaded(env).profiles|
      && r.settings.profiles[i].lastBackup == (if env.backupCompleted then env.today else Loaded(env).profiles[i].lastBackup)
      && (forall j :: 0 <= j < |Loaded(env).profiles| && j != i ==> r.settings.profiles[j] == Loaded(env).profiles[j])
      && MapDrive(Loaded(env).profiles[i].name) in r.trace
      && Balanced(r.trace)
  {
    BackupOnlyCommandLine(program, name);
    var cli := CommandLine.Parse(env.argv);
    var p := Prelude(Startup(env), cli);
    assert p.settings == Loaded(env);
    var target := Lookup.ResolveBackup(Strings.Trim(name), env.backupChoice, Loaded(env).profiles);
    var i := target.index;
    var asked := if Lookup.IsAskUser(Strings.Trim(name)) then [SelectDatabase(true)] else [];
    var s := Stage(p.trace + asked, p.settings, Go);
    var b := BackupStage(env, cli.backup, p);
    assert b == BackupNamed(env, i, s);
    BackupOnlyRun(env, program, name);
    assert Run(env) == Outcome(b.trace, b.settings, Finished);
    assert b.trace[|s.trace|] == MapDrive(Loaded(env).profiles[i].name);
  }

  /** The backup branch for `personal` adds no drive event and leaves profile 0
      as the personal bookkeeping says. */
  lemma BackupStagePersonal(env: Environment, n: string, p: Stage)
    requires p.halt == Go && Quiet(p.trace)
    requires Lookup.ResolveBackup(n, env.backupChoice, p.settings.profiles).Personal?
    ensures var b := BackupStage(env, Some(n), p);
      b.halt == Go && Quiet(b.trace)
      && b.settings == BackupDate.PersonalBackup(p.settings, env.today, env.backupCompleted).final
  {
    var asked := if Lookup.IsAskUser(n) then [SelectDatabase(true)] else [];
    var s := Stage(p.trace + asked, p.settings, Go);
    var b := BackupStage(env, Some(n), p);
    assert b == BackupPersonal(env, s);
    QuietConcat(p.trace, asked);
    QuietConcat(s.trace, b.trace[|s.trace|..]);
    assert s.trace + b.trace[|s.trace|..] == b.trace;
  }

  /** `/backup personal`: profile 0 is copied without any drive mapping, and its
      date moves to today only when the copy completed. */
  lemma PersonalBackupRun(env: Environment, program: string, name: string)
    requires ReachesCommandLine(env) && env.argv == [program, "/backup", name]
    requires Lookup.ResolveBackup(Strings.Trim(name), env.backupChoice, Loaded(env).profiles).Personal?
    ensures var r := Run(env);
      && r.exit == Finished
      && |r.settings.profiles| == |Loaded(env).profiles| > 0
      && r.settings.profiles[0].lastBackup == (if env.backupCompleted then env.today else Loaded(env).profiles[0].lastBackup)
      && (forall j :: 0 < j < |Loaded(env).profiles| ==> r.settings.profiles[j] == Loaded(env).profiles[j])
      && Quiet(r.trace)
  {
    BackupOnlyCommandLine(program, name);
    var cli := CommandLine.Parse(env.argv);
    var p := Prelude(Startup(env), cli);
    assert p.settings == Loaded(env);
    BackupStagePersonal(env, Strings.Trim(name), p);
    BackupOnlyRun(env, program, name);
  }
}

=== FILE: settings_search.dfy ===
/** The start-up search for the settings file: while the file is missing the
    user is asked to reconnect the drive (Yes), start over with defaults (No)
    or quit (Cancel). */
module SettingsSearch {
  import opened Domain

  /** One pass of the loop: the file is there, or it is not and the user answers. */
  datatype Probe = Present | Absent(answer: Answer)

  /** `Waiting`: every observed pass ended in Yes, so the loop is still running. */
  datatype Verdict = Found | GaveUp | Quit | Waiting

  function VerdictOf(p: Probe): Verdict
  {
    match p
    case Present => Found
    case Absent(Yes) => Waiting
    case Absent(No) => GaveUp
    case Absent(Cancel) => Quit
  }

  predicate IsRetry(p: Probe)
  {
    p == Absent(Yes)
  }

  function Search(probes: seq<Probe>): Verdict
    decreases |probes|
  {
    if |probes| == 0 then Waiting
    else if IsRetry(probes[0]) then Search(probes[1..])
    else VerdictOf(probes[0])
  }

  /** The loop ends at the first pass that is not a retry, with that pass's verdict. */
  lemma {:induction false} SearchStopsAtFirstNonRetry(probes: seq<Probe>, k: nat)
    requires k < |probes| && !IsRetry(probes[k])
    requires forall j :: 0 <= j < k ==> IsRetry(probes[j])
    ensures Search(probes) == VerdictOf(probes[k]) && Search(probes) != Waiting
    decreases k
  {
    if k > 0 {
      assert probes[1..][k - 1] == probes[k];
      SearchStopsAtFirstNonRetry(probes[1..], k - 1);
    }
  }

  /** The loop is still waiting exactly when every pass so far was a retry. */
  lemma {:induction false} SearchWaitsOnlyOnRetries(probes: seq<Probe>)
    ensures Search(probes) == Waiting <==> forall j :: 0 <= j < |probes| ==> IsRetry(probes[j])
    decreases |probes|
  {
    if |probes| > 0 {
      SearchWaitsOnlyOnRetries(probes[1..]);
      if IsRetry(probes[0]) {
        assert forall j :: 1 <= j < |probes| ==> probes[j] == probes[1..][j - 1];
      }
    }
  }
}

=== FILE: strings.dfy ===
/** String helpers used by the entry point: the ASCII approximation of a
    case-insensitive comparison, and `Trim` over the characters `"` and
    space. */
module Strings {

  /** ASCII lower-casing of one character; every other character is kept. */
  function Fold(c: char): char
  {
    if 'A' <= c <= 'Z' then (c as int + 32) as char else c
  }

  /** Case-insensitive equality (an ASCII stand-in for CurrentCultureIgnoreCase). */
  predicate EqualsIgnoreCase(a: string, b: string)
  {
    |a| == |b| && forall k :: 0 <= k < |a| ==> Fold(a[k]) == Fold(b[k])
  }

  /** The characters that the command-line parser strips from a database name. */
  predicate IsPad(c: char)
  {
    c == '"' || c == ' '
  }

  predicate AllPad(s: string)
  {
    forall k :: 0 <= k < |s| ==> IsPad(s[k])
  }

  /** Neither end of `s` is a pad character. */
  predicate Trimmed(s: string)
  {
    |s| == 0 || (!IsPad(s[0]) && !IsPad(s[|s| - 1]))
  }

  /** `r` is `s` with a run of pad characters removed on each side. */
  ghost predicate PaddedBy(s: string, r: string)
  {
    exists i :: 0 <= i <= |s| - |r| && s[i..i + |r|] == r && AllPad(s[..i]) && AllPad(s[i + |r|..])
  }

  function TrimStart(s: string): (r: string)
    ensures |r| <= |s| && r == s[|s| - |r|..]
    ensures AllPad(s[..|s| - |r|])
    ensures |r| == 0 || !IsPad(r[0])
    decreases |s|
  {
    if |s| > 0 && IsPad(s[0]) then
      var r := TrimStart(s[1..]);
      var n := |s| - |r|;
      assert s[1..][n - 1..] == s[n..];
      assert forall k :: 1 <= k < n ==> s[k] == s[1..][..n - 1][k - 1];
      r
    else s
  }

  function TrimEnd(s: string): (r: string)
    ensures |r| <= |s| && r == s[..|r|]
    ensures AllPad(s[|r|..])
    ensures |r| == 0 || !IsPad(r[|r| - 1])
    decreases |s|
  {
    if |s| > 0 && IsPad(s[|s| - 1]) then
      var r := TrimEnd(s[..|s| - 1]);
      assert s[..|s| - 1][..|r|] == s[..|r|];
      assert forall k :: |r| <= k < |s| - 1 ==> s[k] == s[..|s| - 1][|r|..][k - |r|];
      r
    else s
  }

  /** String.Trim(new char[] { '"', ' ' }): the longest infix of `s` whose ends
      are not pad characters, obtained by dropping pads from both ends. */
  function Trim(s: string): (r: string)
    ensures Trimmed(r)
    ensures Trimmed(s) ==> r == s
  {
    var t := TrimStart(s);
    var r := TrimEnd(t);
    TrimShape(s, t, r);
    TrimKeepsTrimmed(s);
    r
  }

  /** Trim removes nothing but pad characters, and only from the two ends. */
  lemma TrimRemovesOnlyPads(s: string)
    ensures PaddedBy(s, Trim(s))
  {
    TrimShape(s, TrimStart(s), TrimEnd(TrimStart(s)));
  }

  lemma TrimShape(s: string, t: string, r: string)
    requires |t| <= |s| && t == s[|s| - |t|..] && AllPad(s[..|s| - |t|]) && (|t| == 0 || !IsPad(t[0]))
    requires |r| <= |t| && r == t[..|r|] && AllPad(t[|r|..]) && (|r| == 0 || !IsPad(r[|r| - 1]))
    ensures Trimmed(r) && PaddedBy(s, r)
  {
    assert |r| > 0 ==> r[0] == t[0];
    var i := |s| - |t|;
    TrimSlices(s, t, r, i);
    PaddedWitness(s, r, i);
  }

  lemma TrimSlices(s: string, t: string, r: string, i: nat)
    requires i <= |s| && t == s[i..] && |r| <= |t| && r == t[..|r|]
    ensures s[i..i + |r|] == r && s[i + |r|..] == t[|r|..]
  {
  }

  lemma PaddedWitness(s: string, r: string, i: nat)
    requires i + |r| <= |s| && s[i..i + |r|] == r && AllPad(s[..i]) && AllPad(s[i + |r|..])
    ensures PaddedBy(s, r)
  {
  }

  lemma TrimKeepsTrimmed(s: string)
    ensures Trimmed(s) ==> TrimEnd(TrimStart(s)) == s
  {
    if Trimmed(s) && |s| > 0 {
      assert TrimStart(s) == s;
      assert TrimEnd(s) == s;
    }
  }

  /** Trimming a captured name a second time changes nothing. */
  lemma TrimIdempotent(s: string)
    ensures Trim(Trim(s)) == Trim(s)
  {
  }
}
